=== FILE: README.md ===
# Alien Invasion: the integer game-state machine

This project models the core of a small 2D arcade shooter. The player's ship fires bullets
at a fleet of aliens that marches sideways, drops and reverses at the screen edges. The
game tracks lives, score, level and a high score that persists between runs. The model
covers the integer part of the controller (`AlienInvasion` in `alien_invasion.py`) and of
`Settings` (`settings.py`). The game state is an immutable datatype, and every
controller method is a pure step function over it.

Modules (one file each):

- `Results` (`results.dfy`): `Option` and `Result`. A `Result` stands for a step that can
  raise an exception the program does not catch.
- `GameSettings` (`settings.dfy`): the integer settings, `initialize_dynamic_settings`,
  and the point scaling of `increase_speed`.
- `Fleet` (`fleet.dfy`): the layout arithmetic of `_create_fleet` and `_create_alien`,
  with lemmas on count, positions, distinctness, non-overlap and margins.
- `Decimal` (`decimal.dfy`): `str(n)` and `int(s)` on decimal strings, and their round trip.
- `Sequences` (`sequences.dfy`): order-keeping filtering, used for removing sprites from a group,
  and the first-match scan of a `for ... break` loop.
- `HighScore` (`highscore.dfy`): the decisions of `_load_data` and `_load_high_score`.
  The data file is an `Option<string>`: `None` when it does not exist, otherwise the
  string that `json.load` returns.
- `Game` (`game.dfy`): the state and its transitions. These are firing, pruning, bullet-alien
  scoring, fleet clear and respawn, ship hit, bottom check, edge bounce, the alien update,
  game start, the play button and event dispatch.
- `GameProperties` (`game_properties.dfy`): properties that span several steps. Examples are
  the per-frame invariant, at most one life lost per frame, and nothing going backwards
  within a game.

Sprite movement, rectangle collisions, the per-alien edge test and the ship-alien test are
not part of the model. They come from the rendering library or from files that are not
modelled (`alien.py`, `bullet.py`, `ship.py`). Each is a function parameter, bundled in
`Game.Physics`. The bullet that `Bullet(self)` creates on a fire key is carried by the
`Space` key event.

In three places the code differs from a natural reading of the game. The model follows the code:

- `ship_hit` decrements while `ships_left > 0`. It ends the game only when it is called with
  `ships_left == 0`. So the hit that takes the count from 1 to 0 keeps the game running on a
  fresh fleet (`GameProperties.LastLifeKeepsPlaying`). One might expect this hit to end
  the game.
- `initialize_dynamic_settings` does not reset `alien_point`. Points per alien therefore keep
  growing across games (`GameSettings.InitializeDynamic`, `Game.StartGame`,
  `GameProperties.EventEffects`).
- The fire key is handled whether or not a game is running, since `_fire_bullte` has no
  activity check.

Two more things follow from the code and hold in the model. If the layout leaves no room
for a fleet, `_check_alien_collisions` finds the group empty on every frame. It then levels
up on every frame (`Game.ClearedFleet`). The stats reset and the scoreboard's high-score
check live in `game_stasts.py` and `scoreboard.py`, which are not part of this model.
The model assumes what those two steps are meant to do. `Game.ResetStats` gives full
lives, score 0 and level 1. `Game.CheckHighScore` makes the high score follow a larger score.

## Model

| member | source | states |
|---|---|---|
| GameSettings.Initial | settings.py:4-27 | the constructor's integer settings: 3 ships, 20 bullets, drop speed 10, 50 points per alien, direction 1, and the result is well formed |
| GameSettings.InitializeDynamic | settings.py:29-36 | the reset sets the direction to 1 and leaves the points per alien, ship limit, bullet allowance and drop speed unchanged |
| GameSettings.ScalePoint | settings.py:43 | `int(p * 1.5)` truncates toward zero: for p >= 0 the result is the floor of 3p/2, and for p < 0 it is the ceiling |
| GameSettings.IncreaseSpeed | settings.py:38-43 | a speed-up scales the points once and records one speed-up; direction, ship limit, bullet allowance and drop speed are untouched; well-formed settings stay well formed and the points never decrease |
| GameSettings.ScalePointGrows | settings.py:43 | scaling strictly increases the points exactly when they are at least 2; 0 and 1 are fixed points |
| GameSettings.ScaledTimesGrows | settings.py:43 | n speed-ups starting from at least 2 points raise the points by at least n |
| GameSettings.PointSequenceFromInitial | settings.py:20-43 | starting from 50, successive speed-ups give 75, 112, 168 and 252 points |
| Fleet.FloorDiv | alien_invasion.py:92-98 | Python's `//` with a positive divisor: q*b <= a < q*b + b |
| Fleet.Columns | alien_invasion.py:92-93 | the column count is the largest n with 2aw*n within the width left after a one-alien margin on each side |
| Fleet.Rows | alien_invasion.py:96-98 | the row count is the largest n with 2ah*n within the height left after three alien heights and the ship |
| Fleet.Place | alien_invasion.py:104-110 | the alien of cell (col, row) sits one alien size in from the corner on a pitch of two sizes: dividing its x - aw by 2aw leaves no remainder and gives back col, and likewise y - ah by 2ah gives back row |
| Fleet.RowOfAliens | alien_invasion.py:101-110 | the inner loop yields exactly n aliens; the alien in column c is at that cell's corner |
| Fleet.Grid | alien_invasion.py:100-102 | the nested loops yield exactly rows*cols aliens with no repeats; an alien is produced exactly when it is the corner of a grid cell |
| Fleet.CreateFleet | alien_invasion.py:87-102 | the fleet holds one alien per grid cell: its size is the product of the column and row counts (each 0 when not positive), an alien is in it exactly when it is the corner of a cell in range, and none occurs twice |
| Fleet.PlaceInjective | alien_invasion.py:108-110 | two cells that place their aliens at the same corner are the same cell |
| Fleet.FleetSize | alien_invasion.py:87-102 | the fleet size is the column count times the row count, where a non-positive quotient means `range` is empty; the fleet is empty when either count is not positive and non-empty otherwise |
| Fleet.FleetCells | alien_invasion.py:87-110 | an alien is in the fleet exactly when it sits at x = aw + 2aw*col, y = ah + 2ah*row for a cell in range, and no alien occurs twice |
| Fleet.CellBounds | alien_invasion.py:92-110 | the alien of an in-range cell has its left edge at x >= aw, its right edge at most W - 2aw, its top at y >= ah and its bottom at most H - 3ah - sh |
| Fleet.FleetBounds | alien_invasion.py:87-110 | every alien of a fresh fleet lies within those margins |
| Fleet.CellsDisjoint | alien_invasion.py:108-110 | the rectangles of the aliens of two different cells do not overlap |
| Fleet.FleetDisjoint | alien_invasion.py:87-110 | no two aliens of a fresh fleet overlap |
| Sequences.Filter | alien_invasion.py:135-137 | removing rejected elements keeps every accepted element with its multiplicity and nothing else, in the original order (`FilterConcat`); the length is unchanged exactly when nothing is rejected, and then the sequence is unchanged |
| Sequences.FilterConcat | alien_invasion.py:135-137 | removal keeps the original order: filtering a concatenation is the concatenation of the filtered parts |
| Decimal.ShowNat | alien_invasion.py:70 | `str` of a natural number is a non-empty digit string without a leading zero |
| Decimal.Show | alien_invasion.py:70-76 | `str` of an integer is a digit string exactly for non-negative values, and starts with '-' exactly for negative ones |
| Decimal.Parse | alien_invasion.py:46-67 | `int(s)` succeeds exactly on an optional sign followed by at least one digit; a leading '-' gives a value <= 0 and plain digits a value >= 0 |
| Decimal.ShowNatValue | alien_invasion.py:63-78 | reading back the digits written for n gives n |
| Decimal.ParseShow | alien_invasion.py:63-78 | `int(str(n)) == n` for every integer n |
| HighScore.Stored | alien_invasion.py:64-67 | a missing file stores nothing; an existing file stores its parsed value, and an unparsable one raises |
| HighScore.Persist | alien_invasion.py:68-78 | the quit-time decision writes exactly when nothing is stored or the stored value is below the current one; the stored value never goes down and ends at least the current high score |
| HighScore.LoadData | alien_invasion.py:39-47 | at startup a missing file leaves the in-memory high score unchanged, a stored value replaces it, and an unparsable file raises |
| HighScore.SaveHighScore | alien_invasion.py:63-78 | saving succeeds exactly when the old file is readable; the new file stores what the decision prescribes; when no write is due the file is untouched |
| HighScore.SaveThenLoad | alien_invasion.py:39-78 | after a save, the next load yields the larger of the old stored value and the high score, or the high score itself when there was no file |
| Game.ResetStats | alien_invasion.py:182 | the stats reset gives the full ship allowance, score 0 and level 1, and changes nothing else |
| Game.Startup | alien_invasion.py:17-37 | the constructor gives an inactive state that satisfies the invariant, on the given layout with the initial settings, the full ship allowance, score 0 and level 1, a fresh fleet and no bullets; the high score is 0 without a file and the stored value otherwise; it fails exactly when the file is unreadable |
| Game.Fire | alien_invasion.py:126-130 | below the cap the bullet is appended and the old bullets stay unchanged; at the cap nothing changes; a count within the cap stays within it |
| Game.Prune | alien_invasion.py:132-137 | a bullet remains exactly when it was there and has y > 0, and each such bullet keeps its multiplicity, in firing order (`PruneKeepsOrder`); with none off screen the bullets are unchanged |
| Game.GroupCollide | alien_invasion.py:142 | an alien survives exactly when no bullet overlaps it; a bullet is removed only when it overlapped some alien, no bullet is duplicated, and a bullet that overlaps no alien at all is kept with its multiplicity; surviving aliens plus destroyed aliens equal the original count, and every entry of the per-bullet counts is positive; no surviving bullet overlaps a surviving alien; with no hits nothing is removed |
| Game.CollideSurvivors | alien_invasion.py:142 | the surviving aliens are exactly the original ones that no bullet overlaps, in their original order and with their multiplicity |
| Game.CollideBullets | alien_invasion.py:142 | the surviving bullets are exactly those that overlap no alien still alive when they are tried, in their original order; so a bullet that only touches aliens an earlier bullet already destroyed is kept |
| Game.AddPointsTotal | alien_invasion.py:143-145 | adding points per struck bullet adds exactly the point value times the total destroyed, and never lowers the score when the points are non-negative |
| Game.CheckHighScore | alien_invasion.py:147 | the high score becomes the larger of itself and the score |
| Game.ScoreHits | alien_invasion.py:142-147 | the survivors are exactly the aliens no bullet overlaps, and the remaining bullets are exactly those that overlap no alien still alive when tried, in order (so none is duplicated and an untouched bullet is kept); the score grows by exactly the point value per destroyed alien; the high score is checked against the new score exactly when something was destroyed and is untouched otherwise; lives, level, settings and activity do not change |
| Game.ClearedFleet | alien_invasion.py:148-156 | when no alien is left the bullets are cleared, a fresh fleet is laid out, the settings are sped up once and the level goes up by exactly 1; otherwise nothing changes |
| Game.CheckAlienCollisions | alien_invasion.py:140-156 | every alien some bullet overlaps is destroyed and scores the point value; the high score is checked exactly when something was destroyed; when no alien survives, the bullets are cleared, a fresh fleet is laid out, the settings are sped up and the level rises by 1; otherwise the survivors stay, no bullet is duplicated, a bullet that overlaps no alien keeps its multiplicity, and level and settings are unchanged (which bullets remain exactly is `CollisionsKeepUnspentBullets`); lives, activity and layout never change |
| Game.UpdateBullets | alien_invasion.py:132-138 | the bullet update leaves lives, activity and layout alone, never lowers the score or the high score, speeds up at most once, raises the level by at most 1 and never adds bullets; every remaining bullet is one of the moved bullets and is on screen (y > 0) |
| Game.ShipHit | alien_invasion.py:49-61 | with ships left exactly one is lost, the fleet is fresh, the bullets are empty and the game keeps its activity; with none left only the game becomes inactive; the count never goes negative |
| Game.ReachedBottom | alien_invasion.py:80-83 | the scan finds an alien exactly when some alien's bottom edge is at or below the screen's bottom |
| Game.CheckAliensBottom | alien_invasion.py:80-85 | when some alien's bottom reaches the screen bottom, exactly one life is lost however many aliens are there, with a fresh fleet and no bullets, the game staying active and score, level and settings untouched; with no life left the game only becomes inactive; otherwise nothing changes |
| Game.ChangeFleetDirection | alien_invasion.py:120-124 | the direction is negated, every alien drops by the drop speed and keeps its x, and nothing else changes |
| Game.AnyAtEdge | alien_invasion.py:113-116 | the scan finds an alien exactly when some alien is at an edge |
| Game.CheckFleetEdges | alien_invasion.py:113-124 | when some alien is at an edge, every alien drops by the drop speed and the direction is negated once; otherwise nothing changes; a direction of +1 or -1 stays +1 or -1 |
| Game.UpdateAliens | alien_invasion.py:236-242 | the alien update touches only the aliens, bullets, lives, activity and direction; it never raises the life count or takes it below zero, and never starts a game |
| Game.RunFrame | alien_invasion.py:244-252 | an inactive game is left as it is; a frame never starts a game, never adds a life or takes the count below zero, never lowers the score or the high score, keeps the layout and raises the level by at most 1 |
| Game.StartGame | alien_invasion.py:177-196 | a start activates the game with direction 1, a full ship allowance, score 0, level 1, a fresh fleet and no bullets; the settings are exactly the dynamic reset of the old ones, so ship limit, bullet allowance, drop speed and points per alien carry over, as does the high score |
| Game.CheckPlayButton | alien_invasion.py:172-175 | a click on the button always leaves a game running; it starts a new game exactly when none is running; in a running game, or without a click, nothing changes |
| Game.HandleEvent | alien_invasion.py:158-217 | closing the window or the quit key exits after the quit-time save, and nothing else exits; `p` starts a game unconditionally; a click goes to the play button; the fire key fires; key releases, the arrow keys and other keys leave the modelled state unchanged |
| GameProperties.NoHitNoCollision | alien_invasion.py:142 | when no bullet overlaps any alien, the collision reports nothing and removes nothing |
| GameProperties.PruneIdempotent | alien_invasion.py:135-137 | pruning an already pruned group changes nothing |
| GameProperties.PruneKeepsOrder | alien_invasion.py:135-137 | pruning keeps the bullets in firing order: pruning a concatenation prunes each part and concatenates the results |
| GameProperties.NoHitNoChange | alien_invasion.py:140-156 | with no overlap and a non-empty fleet, the collision step changes nothing |
| GameProperties.CollisionsKeepInvariant | alien_invasion.py:140-156 | the collision step keeps the invariant and never lowers the score |
| GameProperties.CollisionsKeepUnspentBullets | alien_invasion.py:142-156 | while some alien survives, the bullets left after the collision step are exactly those that overlap no alien still alive when tried, in their original order |
| GameProperties.LastLifeKeepsPlaying | alien_invasion.py:49-61 | a hit at one life left reaches 0 lives and keeps the game running on a fresh fleet; only the next hit ends it |
| GameProperties.FreshFleetNotAtBottom | alien_invasion.py:80-102 | a freshly laid-out fleet never triggers the bottom check |
| GameProperties.UpdateAliensAtMostOneHit | alien_invasion.py:236-242 | the ship collision and the bottom check together cost at most one life per alien update, and the count stays non-negative |
| GameProperties.FrameLosesAtMostOneShip | alien_invasion.py:244-251 | one frame loses at most one life and never takes the count below zero |
| GameProperties.UpdateBulletsKeepsInvariant | alien_invasion.py:132-156 | the bullet update keeps the invariant |
| GameProperties.UpdateAliensKeepsInvariant | alien_invasion.py:236-242 | the alien update keeps the invariant |
| GameProperties.FrameKeepsInvariant | alien_invasion.py:244-251 | every frame keeps the invariant: lives >= 0, direction +1 or -1, bullets within the allowance, score >= 0, level >= 1 |
| GameProperties.EventKeepsInvariant | alien_invasion.py:158-210 | every event that does not exit keeps the invariant |
| GameProperties.FrameMonotone | alien_invasion.py:244-251 | a frame never adds a life and never lowers the score, the high score or the points per alien; the level rises by at most 1 |
| GameProperties.EventEffects | alien_invasion.py:158-217 | events never change the high score or the points per alien; an event that changes the life count is a game start |
| GameProperties.FlipTwiceRestoresDirection | alien_invasion.py:120-124 | reversing twice restores the direction and all settings, and every alien has dropped twice the drop speed |
| GameProperties.PlayButtonOnlyWhenInactive | alien_invasion.py:172-210 | a click on the button does nothing in a running game and starts one otherwise; `p` starts a game in every state |
| GameProperties.StartGivesFullFleet | alien_invasion.py:177-193 | when the layout has room for a row and a column, a start gives a non-empty fleet of exactly rows times columns aliens |

## Left out

- Rendering, display setup, event polling, mouse visibility and the endless `run_game` loop are I/O. `Game.RunFrame` models one pass of the loop after the events.
- The 0.5 s `sleep` in `ship_hit` is real-time blocking and has no effect on the modelled state.
- The float speeds (`ship_speed`, `bullet_speed`, `alien_speed`, scaled by 1.1) are left out. `Settings.speedUps` counts how often they were scaled since the last reset.
- Rectangle collisions (`groupcollide`, `spritecollideany`), the bullet and alien `update` methods and `check_edges` are function parameters in `Game.Physics`. They come from the rendering library and from `alien.py` and `bullet.py`, which are not part of this model.
- The ship is not modelled: `ship.update()` in the main loop, `center_ship` in `ship_hit` and `_start_game`, the ship's position and its movement flags are dropped. `ship.py` is not part of this model. So the arrow keys leave the modelled state unchanged.
- Scoreboard and button rendering (`prep_*`, `show_score`, `draw_button`) have no effect on the modelled state. `scoreboard.py` and `button.py` are not part of this model. Whether a click lands on the button is a boolean of the event.
- `game_stasts.py` is not part of this model. The model assumes the initial stats are inactive with high score 0, and assumes what `reset_stats` does (see `Game.ResetStats`).
- JSON syntax is not modelled. The file is the string `json.load` returns, or `None` when the file does not exist. A file that `json.load` decodes to a number, or that it cannot decode, is not modelled.
- Decimal.Parse: does not accept the surrounding whitespace, underscores between digits or non-ASCII digits that Python's `int` also accepts. `str` never writes any of these.
- GameSettings.ScalePoint: is exact arithmetic. Python computes `alien_point * 1.5` in floating point, which agrees only while the product is exactly representable, that is while 3p/2 is below 2^52.
- Fleet.Layout: the alien width and height have type `Pos` (> 0). With a zero size Python's `//` raises `ZeroDivisionError`, which the model does not represent.
- Other IO failures, such as a file that cannot be written, are not modelled.

=== FILE: decimal.dfy ===
/** Python's `str(n)` and `int(s)` on integers written in ASCII decimal. */
module Decimal {
  import opened Results

  predicate IsDigit(c: char) {
    '0' <= c <= '9'
  }

  predicate AllDigits(s: string) {
    forall i :: 0 <= i < |s| ==> IsDigit(s[i])
  }

  function DigitChar(d: int): (c: char)
    requires 0 <= d < 10
    ensures IsDigit(c) && c as int - '0' as int == d
  {
    ('0' as int + d) as char
  }

  /** The digits of a natural number, most significant first, without leading zeros. */
  function ShowNat(n: nat): (s: string)
    ensures |s| > 0 && AllDigits(s)
    ensures |s| > 1 ==> s[0] != '0'
    decreases n
  {
    if n < 10 then [DigitChar(n)] else ShowNat(n / 10) + [DigitChar(n % 10)]
  }

  /** `str(n)`: a minus sign before the digits of a negative number. */
  function Show(n: int): (s: string)
    ensures |s| > 0
    ensures n >= 0 <==> AllDigits(s)
    ensures n < 0 <==> s[0] == '-'
  {
    if n < 0 then
      var s := "-" + ShowNat(-n);
      assert !IsDigit(s[0]);
      s
    else ShowNat(n)
  }

  /** The value of a string of decimal digits, read most significant first. */
  function DigitsValue(s: string): nat
    requires AllDigits(s)
    decreases |s|
  {
    if |s| == 0 then 0
    else DigitsValue(s[..|s| - 1]) * 10 + (s[|s| - 1] as int - '0' as int)
  }

  /** `int(s)` for a string of an optional sign and at least one digit; anything else raises. */
  function Parse(s: string): (r: Option<int>)
    ensures r.Some? <==>
      (|s| > 0 && AllDigits(s)) || (|s| > 1 && (s[0] == '-' || s[0] == '+') && AllDigits(s[1..]))
    ensures r.Some? && |s| > 0 && s[0] == '-' ==> r.value <= 0
    ensures r.Some? && AllDigits(s) ==> r.value >= 0
  {
    if |s| > 1 && (s[0] == '-' || s[0] == '+') && AllDigits(s[1..]) then
      var magnitude: int := DigitsValue(s[1..]);
      Some(if s[0] == '-' then -magnitude else magnitude)
    else if |s| > 0 && AllDigits(s) then
      Some(DigitsValue(s))
    else
      None
  }

  /** Reading back the digits of `n` gives `n`. */
  lemma {:induction false} ShowNatValue(n: nat)
    ensures DigitsValue(ShowNat(n)) == n
    decreases n
  {
    if n >= 10 {
      var s := ShowNat(n / 10) + [DigitChar(n % 10)];
      assert s[..|s| - 1] == ShowNat(n / 10);
      ShowNatValue(n / 10);
    }
  }

  /** `int(str(n)) == n` for every integer. */
  lemma ParseShow(n: int)
    ensures Parse(Show(n)) == Some(n)
  {
    if n < 0 {
      var s := Show(n);
      assert s[1..] == ShowNat(-n);
      ShowNatValue(-n);
    } else {
      ShowNatValue(n);
    }
  }
}

=== FILE: fleet.dfy ===
/** The arithmetic that lays out a fresh fleet of aliens on the screen. */
module Fleet {

  type Pos = n: int | n > 0 witness 1

  /** An alien's top-left corner. */
  datatype Alien = Alien(x: int, y: int)

  /** The sizes the layout depends on: the screen and the alien and ship images. */
  datatype Layout = Layout(
    screenWidth: int,
    screenHeight: int,
    alienWidth: Pos,
    alienHeight: Pos,
    shipHeight: nat)

  /** Python's `a // b`; for a positive divisor Dafny's Euclidean `/` floors too. */
  function FloorDiv(a: int, b: Pos): (q: int)
    ensures q * b <= a < q * b + b
  {
    a / b
  }

  /** How many iterations `range(n)` makes: none when `n` is not positive. */
  function RangeLength(n: int): (k: nat)
    ensures n > 0 ==> k == n
    ensures n <= 0 ==> k == 0
  {
    if n > 0 then n else 0
  }

  /** Aliens per row: the width left after a one-alien margin each side, in alien-plus-gap units. */
  function Columns(L: Layout): (cols: int)
    ensures 2 * L.alienWidth * cols <= L.screenWidth - 2 * L.alienWidth
    ensures L.screenWidth - 2 * L.alienWidth < 2 * L.alienWidth * (cols + 1)
  {
    FloorDiv(L.screenWidth - 2 * L.alienWidth, 2 * L.alienWidth)
  }

  /** Rows: the height left after three alien heights and the ship, in alien-plus-gap units. */
  function Rows(L: Layout): (rows: int)
    ensures 2 * L.alienHeight * rows <= L.screenHeight - 3 * L.alienHeight - L.shipHeight
    ensures L.screenHeight - 3 * L.alienHeight - L.shipHeight < 2 * L.alienHeight * (rows + 1)
  {
    FloorDiv(L.screenHeight - 3 * L.alienHeight - L.shipHeight, 2 * L.alienHeight)
  }

  /** Where the alien of grid cell (col, row) is placed. */
  function Place(L: Layout, col: int, row: int): (a: Alien)
    ensures (a.x - L.alienWidth) % (2 * L.alienWidth) == 0
    ensures (a.x - L.alienWidth) / (2 * L.alienWidth) == col
    ensures (a.y - L.alienHeight) % (2 * L.alienHeight) == 0
    ensures (a.y - L.alienHeight) / (2 * L.alienHeight) == row
  {
    DivideExactly(col, 2 * L.alienWidth);
    DivideExactly(row, 2 * L.alienHeight);
    Alien(L.alienWidth + 2 * L.alienWidth * col, L.alienHeight + 2 * L.alienHeight * row)
  }

  /** A multiple of `b` divides by `b` exactly, giving back its factor. */
  lemma DivideExactly(k: int, b: Pos)
    ensures (b * k) % b == 0 && (b * k) / b == k
  {
    var q, r := (b * k) / b, (b * k) % b;
    assert b * k == b * q + r && 0 <= r < b;
    assert b * (k - q) == r;
    ScaleSign(b, k - q);
  }

  /** Scaling by a positive `b` keeps a nonzero factor at least `b` away from zero. */
  lemma ScaleSign(b: Pos, d: int)
    ensures d >= 1 ==> b * d >= b
    ensures d <= -1 ==> b * d <= 0 - b
  {
    if d >= 1 {
      assert b * d == b + b * (d - 1);
    } else if d <= -1 {
      assert b * d == b * (d + 1) - b;
    }
  }

  /** The inner loop: the first `n` aliens of one row. */
  function RowOfAliens(L: Layout, row: int, n: nat): (r: seq<Alien>)
    ensures |r| == n
    ensures forall col :: 0 <= col < n ==> r[col] == Place(L, col, row)
    decreases n
  {
    if n == 0 then [] else RowOfAliens(L, row, n - 1) + [Place(L, n - 1, row)]
  }

  /** Different cells place their aliens at different corners. */
  lemma PlaceInjective(L: Layout, col1: int, row1: int, col2: int, row2: int)
    requires Place(L, col1, row1) == Place(L, col2, row2)
    ensures col1 == col2 && row1 == row2
  {
  }

  /** No alien occurs twice. */
  predicate Distinct(s: seq<Alien>) {
    forall i, j :: 0 <= i < j < |s| ==> s[i] != s[j]
  }

  /** The nested loops: rows 0 to rows-1, each row's columns left to right. */
  function Grid(L: Layout, rows: nat, cols: nat): (r: seq<Alien>)
    ensures |r| == rows * cols
    ensures forall a :: a in r <==> IsCell(L, a, rows, cols)
    ensures Distinct(r)
    decreases rows
  {
    if rows == 0 then []
    else
      var prefix := Grid(L, rows - 1, cols);
      var last := RowOfAliens(L, rows - 1, cols);
      GridStep(L, prefix, last, rows, cols);
      prefix + last
  }

  /** Appending row rows-1 to the grid of the first rows-1 rows gives the full grid. */
  lemma GridStep(L: Layout, prefix: seq<Alien>, last: seq<Alien>, rows: nat, cols: nat)
    requires rows > 0
    requires |prefix| == (rows - 1) * cols
    requires forall a :: a in prefix <==> IsCell(L, a, rows - 1, cols)
    requires Distinct(prefix)
    requires |last| == cols
    requires forall col :: 0 <= col < cols ==> last[col] == Place(L, col, rows - 1)
    ensures |prefix + last| == rows * cols
    ensures forall a :: a in prefix + last <==> IsCell(L, a, rows, cols)
    ensures Distinct(prefix + last)
  {
    var r := prefix + last;
    assert (rows - 1) * cols + cols == rows * cols;
    forall a | a in r ensures IsCell(L, a, rows, cols) {
      if a in prefix {
        var row, col :| 0 <= row < rows - 1 && 0 <= col < cols && a == Place(L, col, row);
        assert IsCell(L, a, rows, cols);
      } else {
        var col :| 0 <= col < cols && last[col] == a;
        assert IsCell(L, a, rows, cols);
      }
    }
    forall a | IsCell(L, a, rows, cols) ensures a in r {
      var row, col :| 0 <= row < rows && 0 <= col < cols && a == Place(L, col, row);
      if row < rows - 1 {
        assert IsCell(L, a, rows - 1, cols);
      } else {
        assert last[col] == a;
      }
    }
    forall i, j | 0 <= i < j < |r| ensures r[i] != r[j] {
      if j < |prefix| {
        assert r[i] == prefix[i] && r[j] == prefix[j];
      } else if |prefix| <= i {
        var ci, cj := i - |prefix|, j - |prefix|;
        assert r[i] == Place(L, ci, rows - 1) && r[j] == Place(L, cj, rows - 1);
        if r[i] == r[j] {
          PlaceInjective(L, ci, rows - 1, cj, rows - 1);
        }
      } else {
        assert r[i] in prefix;
        var row, col :| 0 <= row < rows - 1 && 0 <= col < cols && r[i] == Place(L, col, row);
        var cj := j - |prefix|;
        assert r[j] == Place(L, cj, rows - 1);
        if r[i] == r[j] {
          PlaceInjective(L, col, row, cj, rows - 1);
        }
      }
    }
  }

  /** `a` is the alien of some cell of a rows-by-cols grid. */
  ghost predicate IsCell(L: Layout, a: Alien, rows: int, cols: int) {
    exists row, col :: 0 <= row < rows && 0 <= col < cols && a == Place(L, col, row)
  }

  /** `_create_fleet`: as many rows and columns as fit, each cell filled once. */
  function CreateFleet(L: Layout): (fleet: seq<Alien>)
    ensures |fleet| == RangeLength(Columns(L)) * RangeLength(Rows(L))
    ensures forall a :: a in fleet <==> IsCell(L, a, Rows(L), Columns(L))
    ensures Distinct(fleet)
  {
    var rows, cols := RangeLength(Rows(L)), RangeLength(Columns(L));
    assert rows * cols == cols * rows;
    assert forall a :: IsCell(L, a, Rows(L), Columns(L)) ==> IsCell(L, a, rows, cols);
    Grid(L, RangeLength(Rows(L)), RangeLength(Columns(L)))
  }

  /** The rectangles of two aliens share a point. */
  predicate Overlap(L: Layout, a: Alien, b: Alien) {
    && a.x < b.x + L.alienWidth && b.x < a.x + L.alienWidth
    && a.y < b.y + L.alienHeight && b.y < a.y + L.alienHeight
  }

  /** The fleet holds exactly columns times rows aliens, and none when either count is not positive. */
  lemma FleetSize(L: Layout)
    ensures |CreateFleet(L)| == RangeLength(Columns(L)) * RangeLength(Rows(L))
    ensures Columns(L) <= 0 || Rows(L) <= 0 ==> CreateFleet(L) == []
    ensures Columns(L) > 0 && Rows(L) > 0 ==> |CreateFleet(L)| == Columns(L) * Rows(L) > 0
  {
    var rows, cols := RangeLength(Rows(L)), RangeLength(Columns(L));
    assert rows * cols == cols * rows;
    if cols > 0 && rows > 0 {
      assert cols * rows >= cols;
    }
  }

  /** An alien is in the fleet exactly when it sits at the corner of a cell of the grid. */
  lemma FleetCells(L: Layout, a: Alien)
    ensures a in CreateFleet(L) <==> IsCell(L, a, Rows(L), Columns(L))
    ensures Distinct(CreateFleet(L))
  {
    var rows, cols := RangeLength(Rows(L)), RangeLength(Columns(L));
    if IsCell(L, a, Rows(L), Columns(L)) {
      var row, col :| 0 <= row < Rows(L) && 0 <= col < Columns(L) && a == Place(L, col, row);
      assert IsCell(L, a, rows, cols);
    }
  }

  /** The alien of a cell inside the grid lies inside the margins the layout keeps free. */
  lemma CellBounds(L: Layout, col: int, row: int)
    requires 0 <= col < Columns(L) && 0 <= row < Rows(L)
    ensures Place(L, col, row).x >= L.alienWidth
    ensures Place(L, col, row).x + L.alienWidth <= L.screenWidth - 2 * L.alienWidth
    ensures Place(L, col, row).y >= L.alienHeight
    ensures Place(L, col, row).y + L.alienHeight
      <= L.screenHeight - 3 * L.alienHeight - L.shipHeight
  {
    Apart(L.alienWidth, col, Columns(L));
    Apart(L.alienHeight, row, Rows(L));
  }

  /** Every alien of the fleet lies inside the margins: right edge at most W - 2aw,
      bottom edge at least 3ah + sh above the screen bottom. */
  lemma FleetBounds(L: Layout)
    ensures forall a :: a in CreateFleet(L) ==>
      && L.alienWidth <= a.x && a.x + L.alienWidth <= L.screenWidth - 2 * L.alienWidth
      && L.alienHeight <= a.y
      && a.y + L.alienHeight <= L.screenHeight - 3 * L.alienHeight - L.shipHeight
  {
    forall a | a in CreateFleet(L)
      ensures L.alienWidth <= a.x && a.x + L.alienWidth <= L.screenWidth - 2 * L.alienWidth
      ensures L.alienHeight <= a.y
      ensures a.y + L.alienHeight <= L.screenHeight - 3 * L.alienHeight - L.shipHeight
    {
      FleetCells(L, a);
      var row, col :| 0 <= row < Rows(L) && 0 <= col < Columns(L) && a == Place(L, col, row);
      CellBounds(L, col, row);
    }
  }

  /** Grid lines `a` and `b` of pitch 2*size are at least two sizes apart. */
  lemma Apart(size: Pos, a: int, b: int)
    requires a < b
    ensures 2 * size * b - 2 * size * a >= 2 * size
  {
    var d := b - a - 1;
    assert 2 * size * b - 2 * size * a == 2 * size + 2 * size * d;
    assert 2 * size * d >= 0;
  }

  /** The aliens of two different cells never overlap: a full alien width or height separates them. */
  lemma CellsDisjoint(L: Layout, col1: int, row1: int, col2: int, row2: int)
    requires col1 != col2 || row1 != row2
    ensures !Overlap(L, Place(L, col1, row1), Place(L, col2, row2))
  {
    var w, h := L.alienWidth, L.alienHeight;
    if col1 < col2 {
      Apart(w, col1, col2);
    } else if col2 < col1 {
      Apart(w, col2, col1);
    } else if row1 < row2 {
      Apart(h, row1, row2);
    } else {
      Apart(h, row2, row1);
    }
  }

  /** No two aliens of a fresh fleet overlap. */
  lemma FleetDisjoint(L: Layout, i: int, j: int)
    requires 0 <= i < |CreateFleet(L)| && 0 <= j < |CreateFleet(L)| && i != j
    ensures !Overlap(L, CreateFleet(L)[i], CreateFleet(L)[j])
  {
    var f := CreateFleet(L);
    FleetCells(L, f[i]);
    FleetCells(L, f[j]);
    var r1, c1 :| 0 <= r1 < Rows(L) && 0 <= c1 < Columns(L) && f[i] == Place(L, c1, r1);
    var r2, c2 :| 0 <= r2 < Rows(L) && 0 <= c2 < Columns(L) && f[j] == Place(L, c2, r2);
    CellsDisjoint(L, c1, r1, c2, r2);
  }
}

=== FILE: game.dfy ===
/** The integer game-state machine under the frame loop: firing, pruning, bullet-alien
    scoring, fleet respawn, losing a ship, edge bounce and starting a game. */
module Game {
  import opened Results
  import opened GameSettings
  import opened Fleet
  import opened Sequences
  import HighScore

  /** A bullet's rectangle corner; bullets only ever move up. */
  datatype Bullet = Bullet(x: int, y: int)

  /** Everything the controller keeps between frames that the model tracks. */
  datatype Game = Game(
    layout: Layout,
    settings: Settings,
    active: bool,
    shipsLeft: int,
    score: int,
    level: int,
    highScore: int,
    aliens: seq<Alien>,
    bullets: seq<Bullet>)

  /** What holds of every state the controller reaches. */
  predicate Invariant(g: Game) {
    && Valid(g.settings)
    && g.shipsLeft >= 0
    && g.score >= 0
    && g.level >= 1
    && |g.bullets| <= g.settings.bulletAllowed
  }

  /** The collaborators outside the model: sprite movement, rectangle collisions and the
      per-alien edge test. */
  datatype Physics = Physics(
    moveBullet: Bullet -> Bullet,
    bulletHits: (Bullet, Alien) -> bool,
    atEdge: Alien -> bool,
    moveAlien: (Alien, int) -> Alien,
    shipCollides: seq<Alien> -> bool)

  /** The stats reset: the full ship allowance, no score, level 1. */
  function ResetStats(g: Game): (r: Game)
    ensures r.shipsLeft == g.settings.shipLimit && r.score == 0 && r.level == 1
    ensures r.(shipsLeft := g.shipsLeft, score := g.score, level := g.level) == g
  {
    g.(shipsLeft := g.settings.shipLimit, score := 0, level := 1)
  }

  /** The controller's constructor: initial settings, reset stats, inactive, then the
      stored high score is loaded and a fleet is laid out. */
  function Startup(L: Layout, file: HighScore.DataFile): (r: Result<Game>)
    ensures r.Ok? <==> HighScore.Stored(file).Ok?
    ensures r.Ok? ==> Invariant(r.value) && !r.value.active
    ensures r.Ok? ==> r.value.layout == L && r.value.settings == Initial()
    ensures r.Ok? ==> r.value.shipsLeft == ShipLimit && r.value.score == 0 && r.value.level == 1
    ensures r.Ok? ==> r.value.aliens == CreateFleet(L) && r.value.bullets == []
    ensures r.Ok? && HighScore.Stored(file).value.None? ==> r.value.highScore == 0
    ensures r.Ok? && HighScore.Stored(file).value.Some? ==>
      r.value.highScore == HighScore.Stored(file).value.value
  {
    var s := Initial();
    var g := ResetStats(Game(L, s, false, 0, 0, 0, 0, [], []));
    match HighScore.LoadData(g.highScore, file)
    case Err(e) => Err(e)
    case Ok(h) => Ok(g.(highScore := h, aliens := CreateFleet(L)))
  }

  /** `_fire_bullte`: a new bullet joins only while fewer than the allowance are in flight. */
  function Fire(g: Game, spawned: Bullet): (r: Game)
    ensures |g.bullets| < g.settings.bulletAllowed ==>
      |r.bullets| == |g.bullets| + 1 && r.bullets[..|g.bullets|] == g.bullets
      && r.bullets[|g.bullets|] == spawned
    ensures |g.bullets| >= g.settings.bulletAllowed ==> r == g
    ensures |g.bullets| <= g.settings.bulletAllowed ==> |r.bullets| <= g.settings.bulletAllowed
    ensures r.(bullets := g.bullets) == g
  {
    if |g.bullets| < g.settings.bulletAllowed then g.(bullets := g.bullets + [spawned]) else g
  }

  /** The bullets still on screen: those whose top is below the screen's top edge. */
  function Prune(bullets: seq<Bullet>): (r: seq<Bullet>)
    ensures forall b :: b in r <==> b in bullets && b.y > 0
    ensures forall b :: multiset(r)[b] == if b.y > 0 then multiset(bullets)[b] else 0
    ensures (forall b :: b in bullets ==> b.y > 0) ==> r == bullets
  {
    Filter(bullets, OnScreen)
  }

  /** A bullet whose top is below the screen's top edge. */
  predicate OnScreen(b: Bullet) {
    b.y > 0
  }

  function Sum(s: seq<nat>): nat
    decreases |s|
  {
    if |s| == 0 then 0 else s[0] + Sum(s[1..])
  }

  /** What `groupcollide` with both kill flags leaves: the surviving bullets and aliens,
      and for each bullet that struck something (in order) how many aliens it destroyed. */
  datatype Collision = Collision(bullets: seq<Bullet>, aliens: seq<Alien>, hits: seq<nat>)

  /** The test an alien passes when no bullet of `bullets` overlaps it. */
  function Unhit(bullets: seq<Bullet>, hit: (Bullet, Alien) -> bool): (test: Alien -> bool)
    ensures forall a :: test(a) <==> forall b :: b in bullets ==> !hit(b, a)
  {
    a => forall b :: b in bullets ==> !hit(b, a)
  }

  /** The test an alien passes when bullet `b` does not overlap it. */
  function Missed(b: Bullet, hit: (Bullet, Alien) -> bool): (test: Alien -> bool)
    ensures forall a :: test(a) <==> !hit(b, a)
  {
    a => !hit(b, a)
  }

  /** What `groupcollide` promises: the surviving aliens are exactly those no bullet
      overlaps, a bullet is spent exactly when it destroyed something, and every entry of
      `hits` counts at least one destroyed alien. */
  ghost predicate Collided(bullets: seq<Bullet>, aliens: seq<Alien>, hit: (Bullet, Alien) -> bool,
                     c: Collision)
  {
    && |c.aliens| + Sum(c.hits) == |aliens|
    && |c.bullets| + |c.hits| == |bullets|
    && (forall k :: 0 <= k < |c.hits| ==> c.hits[k] > 0)
    && (forall b, a :: b in c.bullets && a in c.aliens ==> !hit(b, a))
    && (forall a :: a in c.aliens ==> a in aliens)
    && (forall b :: b in c.bullets ==> b in bullets)
    && (|c.hits| == 0 ==> c.bullets == bullets && c.aliens == aliens)
    && (forall a :: a in c.aliens <==> a in aliens && forall b :: b in bullets ==> !hit(b, a))
    && (forall b :: b in bullets && b !in c.bullets ==> exists a :: a in aliens && hit(b, a))
    && multiset(c.bullets) <= multiset(bullets)
    && (forall b :: (forall a :: a in aliens ==> !hit(b, a)) ==>
          multiset(c.bullets)[b] == multiset(bullets)[b])
  }

  /** Bullets are tried in order; each removes every alien it overlaps among those still
      alive, and is removed itself when it overlapped any. */
  function GroupCollide(bullets: seq<Bullet>, aliens: seq<Alien>, hit: (Bullet, Alien) -> bool)
    : (c: Collision)
    ensures |c.aliens| + Sum(c.hits) == |aliens|
    ensures |c.bullets| + |c.hits| == |bullets|
    ensures forall k :: 0 <= k < |c.hits| ==> c.hits[k] > 0
    ensures forall b, a :: b in c.bullets && a in c.aliens ==> !hit(b, a)
    ensures forall a :: a in c.aliens ==> a in aliens
    ensures forall b :: b in c.bullets ==> b in bullets
    ensures |c.hits| == 0 ==> c.bullets == bullets && c.aliens == aliens
    ensures forall a :: a in c.aliens <==> a in aliens && forall b :: b in bullets ==> !hit(b, a)
    ensures forall b :: b in bullets && b !in c.bullets ==> exists a :: a in aliens && hit(b, a)
    ensures multiset(c.bullets) <= multiset(bullets)
    ensures forall b :: (forall a :: a in aliens ==> !hit(b, a)) ==>
      multiset(c.bullets)[b] == multiset(bullets)[b]
    decreases |bullets|
  {
    if |bullets| == 0 then Collision([], aliens, [])
    else
      var b := bullets[0];
      var spared := Filter(aliens, Missed(b, hit));
      var rest := GroupCollide(bullets[1..], spared, hit);
      var c := if |spared| < |aliens| then Collision(rest.bullets, rest.aliens, [|aliens| - |spared|] + rest.hits)
               else Collision([b] + rest.bullets, rest.aliens, rest.hits);
      CollideStep(bullets, aliens, spared, rest, c, hit);
      c
  }

  /** One step of `GroupCollide`: the first bullet spares `spared`, the later bullets leave
      `rest` from it, and `c` puts the two together. Kept apart from `CollideJoin` only so
      that each proof goal stays small. */
  lemma CollideStep(bullets: seq<Bullet>, aliens: seq<Alien>, spared: seq<Alien>,
                    rest: Collision, c: Collision, hit: (Bullet, Alien) -> bool)
    requires |bullets| > 0
    requires spared == Filter(aliens, Missed(bullets[0], hit))
    requires Collided(bullets[1..], spared, hit, rest)
    requires c == if |spared| < |aliens|
                  then Collision(rest.bullets, rest.aliens, [|aliens| - |spared|] + rest.hits)
                  else Collision([bullets[0]] + rest.bullets, rest.aliens, rest.hits)
    ensures Collided(bullets, aliens, hit, c)
  {
    CollideJoin(bullets, aliens, spared, rest, c, hit);
  }

  /** `CollideStep` with what it needs of `spared` spelled out. */
  lemma CollideJoin(bullets: seq<Bullet>, aliens: seq<Alien>, spared: seq<Alien>,
                    rest: Collision, c: Collision, hit: (Bullet, Alien) -> bool)
    requires |bullets| > 0
    requires forall a :: a in spared <==> a in aliens && !hit(bullets[0], a)
    requires |spared| <= |aliens|
    requires |spared| == |aliens| <==> forall a :: a in aliens ==> !hit(bullets[0], a)
    requires (forall a :: a in aliens ==> !hit(bullets[0], a)) ==> spared == aliens
    requires Collided(bullets[1..], spared, hit, rest)
    requires |spared| < |aliens| ==>
      c == Collision(rest.bullets, rest.aliens, [|aliens| - |spared|] + rest.hits)
    requires |spared| == |aliens| ==> c == Collision([bullets[0]] + rest.bullets, rest.aliens, rest.hits)
    ensures Collided(bullets, aliens, hit, c)
  {
    var b := bullets[0];
    assert bullets == [b] + bullets[1..];
    assert multiset(bullets) == multiset([b]) + multiset(bullets[1..]);
    if |spared| < |aliens| {
      assert c.hits[1..] == rest.hits;
      assert exists a :: a in aliens && hit(b, a);
    }
  }

  /** The aliens that survive `groupcollide` are exactly those no bullet overlaps, in their
      original order. */
  lemma {:induction false} CollideSurvivors(bullets: seq<Bullet>, aliens: seq<Alien>,
                                            hit: (Bullet, Alien) -> bool)
    ensures GroupCollide(bullets, aliens, hit).aliens == Filter(aliens, Unhit(bullets, hit))
    decreases |bullets|
  {
    if |bullets| > 0 {
      var b := bullets[0];
      var spared := Filter(aliens, Missed(b, hit));
      CollideSurvivors(bullets[1..], spared, hit);
      assert bullets == [b] + bullets[1..];
      FilterTwice(aliens, Missed(b, hit), Unhit(bullets[1..], hit), Unhit(bullets, hit));
    }
  }

  /** The test an alien passes when bullet `b` overlaps it. */
  function Struck(b: Bullet, hit: (Bullet, Alien) -> bool): (test: Alien -> bool)
    ensures forall a :: test(a) <==> hit(b, a)
  {
    a => hit(b, a)
  }

  /** The aliens still alive when the bullet at index `i` is tried: those none of the
      earlier bullets overlaps. */
  function AliveAt(bullets: seq<Bullet>, aliens: seq<Alien>, hit: (Bullet, Alien) -> bool,
                   i: nat): seq<Alien>
    requires i <= |bullets|
  {
    Filter(aliens, Unhit(bullets[..i], hit))
  }

  /** The bullets from index `i` on that overlap none of the aliens still alive when they
      are tried, in their original order. */
  function KeptFrom(bullets: seq<Bullet>, aliens: seq<Alien>, hit: (Bullet, Alien) -> bool,
                    i: nat): seq<Bullet>
    requires i <= |bullets|
    decreases |bullets| - i
  {
    if i == |bullets| then []
    else
      var spent := Any(AliveAt(bullets, aliens, hit, i), Struck(bullets[i], hit));
      (if spent then [] else [bullets[i]]) + KeptFrom(bullets, aliens, hit, i + 1)
  }

  /** Trying the first bullet and then the rest against what it spared sees, for every
      later bullet, the same aliens alive. */
  lemma {:induction false} KeptShift(bullets: seq<Bullet>, aliens: seq<Alien>,
                                     hit: (Bullet, Alien) -> bool, i: nat)
    requires i < |bullets|
    ensures KeptFrom(bullets, aliens, hit, i + 1)
         == KeptFrom(bullets[1..], Filter(aliens, Missed(bullets[0], hit)), hit, i)
    decreases |bullets| - i
  {
    if i + 1 < |bullets| {
      var b, tail := bullets[0], bullets[1..];
      assert bullets[..i + 1] == [b] + tail[..i];
      FilterTwice(aliens, Missed(b, hit), Unhit(tail[..i], hit), Unhit(bullets[..i + 1], hit));
      assert AliveAt(bullets, aliens, hit, i + 1)
          == AliveAt(tail, Filter(aliens, Missed(b, hit)), hit, i);
      assert bullets[i + 1] == tail[i];
      KeptShift(bullets, aliens, hit, i + 1);
    }
  }

  /** The bullets that survive `groupcollide` are exactly those that overlap no alien still
      alive when they are tried, in their original order: a bullet that only touches aliens
      an earlier bullet already destroyed is kept. */
  lemma {:induction false} CollideBullets(bullets: seq<Bullet>, aliens: seq<Alien>,
                                          hit: (Bullet, Alien) -> bool)
    ensures GroupCollide(bullets, aliens, hit).bullets == KeptFrom(bullets, aliens, hit, 0)
    decreases |bullets|
  {
    if |bullets| == 0 {
      assert GroupCollide(bullets, aliens, hit).bullets == [];
    } else {
      var spared := Filter(aliens, Missed(bullets[0], hit));
      CollideBullets(bullets[1..], spared, hit);
      CollideFirst(bullets, aliens, hit);
      KeptFirst(bullets, aliens, hit);
    }
  }

  /** `GroupCollide` spends its first bullet exactly when that bullet spares fewer aliens
      than there are, and treats the rest against what it spared. */
  lemma CollideFirst(bullets: seq<Bullet>, aliens: seq<Alien>, hit: (Bullet, Alien) -> bool)
    requires |bullets| > 0
    ensures var spared := Filter(aliens, Missed(bullets[0], hit));
      GroupCollide(bullets, aliens, hit).bullets
        == (if |spared| < |aliens| then [] else [bullets[0]])
           + GroupCollide(bullets[1..], spared, hit).bullets
  {
  }

  /** `KeptFrom` drops the first bullet exactly when it spares fewer aliens than there are,
      and judges the rest against what it spared. */
  lemma KeptFirst(bullets: seq<Bullet>, aliens: seq<Alien>, hit: (Bullet, Alien) -> bool)
    requires |bullets| > 0
    ensures var spared := Filter(aliens, Missed(bullets[0], hit));
      KeptFrom(bullets, aliens, hit, 0)
        == (if |spared| < |aliens| then [] else [bullets[0]])
           + KeptFrom(bullets[1..], spared, hit, 0)
  {
    var b := bullets[0];
    KeptShift(bullets, aliens, hit, 0);
    assert bullets[..0] == [];
    assert AliveAt(bullets, aliens, hit, 0) == aliens;
    var spent := Any(aliens, Struck(b, hit));
    assert spent <==> |Filter(aliens, Missed(b, hit))| < |aliens|;
  }

  /** The scoring loop: `alien_point` times the destroyed count, added per struck bullet. */
  function AddPoints(score: int, point: int, hits: seq<nat>): int
    decreases |hits|
  {
    if |hits| == 0 then score else AddPoints(score + point * hits[0], point, hits[1..])
  }

  /** The scoreboard's high-score check: the high score follows a larger score. */
  function CheckHighScore(score: int, highScore: int): (r: int)
    ensures r >= score && r >= highScore
    ensures r == score || r == highScore
  {
    if score > highScore then score else highScore
  }

  /** `point` for each of `count` destroyed aliens. */
  function Points(point: int, count: int): int {
    point * count
  }

  /** The per-bullet scoring loop adds `point` once per destroyed alien. */
  lemma {:induction false} AddPointsTotal(score: int, point: int, hits: seq<nat>)
    ensures AddPoints(score, point, hits) == score + point * Sum(hits)
    ensures point >= 0 ==> AddPoints(score, point, hits) >= score
    decreases |hits|
  {
    if |hits| > 0 {
      AddPointsTotal(score + point * hits[0], point, hits[1..]);
      assert point * hits[0] + point * Sum(hits[1..]) == point * (hits[0] + Sum(hits[1..]));
    }
  }

  /** The aliens of `g` that no bullet of `g` overlaps, in fleet order. */
  function Survivors(g: Game, hit: (Bullet, Alien) -> bool): seq<Alien> {
    Filter(g.aliens, Unhit(g.bullets, hit))
  }

  /** The bullets of `g` that overlap no alien still alive when they are tried, in order. */
  function Unspent(g: Game, hit: (Bullet, Alien) -> bool): seq<Bullet> {
    KeptFrom(g.bullets, g.aliens, hit, 0)
  }

  /** The first half of `_check_alien_collisions`: remove what collided and, when anything
      did, score it and check the high score. The score grows by exactly the point value
      times the number of aliens destroyed. */
  function ScoreHits(g: Game, hit: (Bullet, Alien) -> bool): (r: Game)
    ensures |r.aliens| <= |g.aliens| && |r.bullets| <= |g.bullets|
    ensures r.score == g.score + Points(g.settings.alienPoint, |g.aliens| - |Survivors(g, hit)|)
    ensures g.settings.alienPoint >= 0 ==> r.score >= g.score
    ensures r.highScore >= g.highScore
    ensures |r.aliens| < |g.aliens| ==> r.highScore >= r.score
    ensures r.highScore == if |r.aliens| < |g.aliens| then CheckHighScore(r.score, g.highScore)
                           else g.highScore
    ensures forall a :: a in r.aliens <==>
      a in g.aliens && forall b :: b in g.bullets ==> !hit(b, a)
    ensures forall b :: b in g.bullets && b !in r.bullets ==> exists a :: a in g.aliens && hit(b, a)
    ensures forall b, a :: b in r.bullets && a in r.aliens ==> !hit(b, a)
    ensures forall b :: b in r.bullets ==> b in g.bullets
    ensures multiset(r.bullets) <= multiset(g.bullets)
    ensures forall b :: (forall a :: a in g.aliens ==> !hit(b, a)) ==>
      multiset(r.bullets)[b] == multiset(g.bullets)[b]
    ensures r.aliens == Survivors(g, hit)
    ensures r.bullets == Unspent(g, hit)
    ensures r.(score := g.score, highScore := g.highScore, bullets := g.bullets,
               aliens := g.aliens) == g
  {
    var c := GroupCollide(g.bullets, g.aliens, hit);
    CollideSurvivors(g.bullets, g.aliens, hit);
    CollideBullets(g.bullets, g.aliens, hit);
    var r := if |c.hits| > 0 then Scored(g, c) else g;
    ScoreStep(g, hit, c, r);
    r
  }

  /** `g` after the struck bullets and aliens of `c` are removed and scored. */
  function Scored(g: Game, c: Collision): Game {
    var s := AddPoints(g.score, g.settings.alienPoint, c.hits);
    g.(bullets := c.bullets, aliens := c.aliens, score := s,
       highScore := CheckHighScore(s, g.highScore))
  }

  /** The facts `ScoreHits` promises, from what `groupcollide` promises about `c`. The
      arithmetic is kept apart in `ScorePoints` only so that each proof goal stays small. */
  lemma ScoreStep(g: Game, hit: (Bullet, Alien) -> bool, c: Collision, r: Game)
    requires Collided(g.bullets, g.aliens, hit, c)
    requires c.aliens == Survivors(g, hit)
    requires c.bullets == Unspent(g, hit)
    requires r == if |c.hits| > 0 then Scored(g, c) else g
    ensures |r.aliens| <= |g.aliens| && |r.bullets| <= |g.bullets|
    ensures r.score == g.score + Points(g.settings.alienPoint, |g.aliens| - |Survivors(g, hit)|)
    ensures g.settings.alienPoint >= 0 ==> r.score >= g.score
    ensures r.highScore == if |r.aliens| < |g.aliens| then CheckHighScore(r.score, g.highScore)
                           else g.highScore
    ensures forall a :: a in r.aliens <==>
      a in g.aliens && forall b :: b in g.bullets ==> !hit(b, a)
    ensures forall b :: b in g.bullets && b !in r.bullets ==> exists a :: a in g.aliens && hit(b, a)
    ensures forall b, a :: b in r.bullets && a in r.aliens ==> !hit(b, a)
    ensures forall b :: b in r.bullets ==> b in g.bullets
    ensures multiset(r.bullets) <= multiset(g.bullets)
    ensures forall b :: (forall a :: a in g.aliens ==> !hit(b, a)) ==>
      multiset(r.bullets)[b] == multiset(g.bullets)[b]
    ensures r.aliens == Survivors(g, hit)
    ensures r.bullets == Unspent(g, hit)
    ensures r.(score := g.score, highScore := g.highScore, bullets := g.bullets,
               aliens := g.aliens) == g
  {
    ScorePoints(g, hit, c, r);
  }

  /** The arithmetic of `ScoreStep`: `point` once per destroyed alien. */
  lemma ScorePoints(g: Game, hit: (Bullet, Alien) -> bool, c: Collision, r: Game)
    requires |c.aliens| + Sum(c.hits) == |g.aliens|
    requires c.aliens == Survivors(g, hit)
    requires |c.hits| == 0 ==> c.aliens == g.aliens
    requires forall k :: 0 <= k < |c.hits| ==> c.hits[k] > 0
    requires r == if |c.hits| > 0 then Scored(g, c) else g
    ensures r.score == g.score + Points(g.settings.alienPoint, |g.aliens| - |Survivors(g, hit)|)
    ensures g.settings.alienPoint >= 0 ==> r.score >= g.score
    ensures r.highScore == if |c.aliens| < |g.aliens| then CheckHighScore(r.score, g.highScore)
                           else g.highScore
  {
    var destroyed := |g.aliens| - |c.aliens|;
    ScaleEqual(g.settings.alienPoint, destroyed, |g.aliens| - |Survivors(g, hit)|);
    if |c.hits| > 0 {
      AddPointsTotal(g.score, g.settings.alienPoint, c.hits);
      ScaleEqual(g.settings.alienPoint, Sum(c.hits), destroyed);
      assert Sum(c.hits) >= c.hits[0] > 0;
    } else {
      ScaleEqual(g.settings.alienPoint, destroyed, 0);
    }
  }

  /** Equal counts score equal points. */
  lemma ScaleEqual(point: int, m: int, n: int)
    requires m == n
    ensures point * m == point * n
  {
  }

  /** The second half of `_check_alien_collisions`: once the fleet is gone, clear the
      bullets, lay out a new fleet, speed up and go to exactly the next level. */
  function ClearedFleet(g: Game): (r: Game)
    ensures |g.aliens| == 0 ==>
      && r.bullets == [] && r.aliens == CreateFleet(g.layout)
      && r.settings == IncreaseSpeed(g.settings) && r.level == g.level + 1
    ensures |g.aliens| > 0 ==> r == g
    ensures r.(bullets := g.bullets, aliens := g.aliens, settings := g.settings,
               level := g.level) == g
  {
    if |g.aliens| == 0 then
      g.(bullets := [], aliens := CreateFleet(g.layout),
         settings := IncreaseSpeed(g.settings), level := g.level + 1)
    else g
  }

  /** `_check_alien_collisions`: every alien some bullet overlaps is destroyed and scores
      `alien_point`; the bullets that struck are spent. When no alien survives, the next
      level starts on a fresh fleet, faster and with no bullets. Lives, the active flag and
      the layout are untouched. */
  function CheckAlienCollisions(g: Game, hit: (Bullet, Alien) -> bool): (r: Game)
    ensures r.score == g.score + Points(g.settings.alienPoint, |g.aliens| - |Survivors(g, hit)|)
    ensures r.highScore == if |Survivors(g, hit)| < |g.aliens|
                           then CheckHighScore(r.score, g.highScore) else g.highScore
    ensures |Survivors(g, hit)| == 0 ==>
      && r.bullets == [] && r.aliens == CreateFleet(g.layout)
      && r.settings == IncreaseSpeed(g.settings) && r.level == g.level + 1
    ensures |Survivors(g, hit)| > 0 ==>
      && r.aliens == Survivors(g, hit) && r.settings == g.settings && r.level == g.level
      && (forall b :: b in r.bullets ==> b in g.bullets)
    ensures |Survivors(g, hit)| > 0 ==> multiset(r.bullets) <= multiset(g.bullets)
    ensures |Survivors(g, hit)| > 0 ==> forall b :: (forall a :: a in g.aliens ==> !hit(b, a)) ==>
      multiset(r.bullets)[b] == multiset(g.bullets)[b]
    ensures |r.bullets| <= |g.bullets|
    ensures g.settings.alienPoint >= 0 ==> r.score >= g.score
    ensures r.shipsLeft == g.shipsLeft && r.active == g.active && r.layout == g.layout
  {
    ClearedFleet(ScoreHits(g, hit))
  }

  /** `_update_bulltes`: move, drop the bullets that left the screen, then resolve hits. */
  function UpdateBullets(g: Game, physics: Physics): (r: Game)
    ensures r.shipsLeft == g.shipsLeft && r.active == g.active && r.layout == g.layout
    ensures r.score >= g.score || g.settings.alienPoint < 0
    ensures r.highScore >= g.highScore
    ensures r.settings == g.settings || r.settings == IncreaseSpeed(g.settings)
    ensures r.level == g.level || r.level == g.level + 1
    ensures |r.bullets| <= |g.bullets|
    ensures forall b :: b in r.bullets ==> b.y > 0 && b in MoveBullets(g.bullets, physics.moveBullet)
  {
    var pruned := g.(bullets := Prune(MoveBullets(g.bullets, physics.moveBullet)));
    CheckAlienCollisions(pruned, physics.bulletHits)
  }

  /** `self.bullets.update()`: every bullet takes one step. */
  function MoveBullets(bullets: seq<Bullet>, moveBullet: Bullet -> Bullet): (r: seq<Bullet>)
    ensures |r| == |bullets|
    ensures forall i :: 0 <= i < |bullets| ==> r[i] == moveBullet(bullets[i])
  {
    seq(|bullets|, i requires 0 <= i < |bullets| => moveBullet(bullets[i]))
  }

  /** `ship_hit`: with ships left, lose one and restart the wave on a fresh fleet; with
      none left, the game ends and nothing else changes. */
  function ShipHit(g: Game): (r: Game)
    ensures g.shipsLeft > 0 ==>
      && r.shipsLeft == g.shipsLeft - 1
      && r.aliens == CreateFleet(g.layout) && r.bullets == []
      && r.(shipsLeft := g.shipsLeft, aliens := g.aliens, bullets := g.bullets) == g
    ensures g.shipsLeft <= 0 ==> !r.active && r.(active := g.active) == g
    ensures g.shipsLeft >= 0 ==> r.shipsLeft >= 0
  {
    if g.shipsLeft > 0 then
      g.(shipsLeft := g.shipsLeft - 1, aliens := CreateFleet(g.layout), bullets := [])
    else
      g.(active := false)
  }

  /** The scan of `_check_aliens_bottom`: does some alien's bottom edge reach the bottom of
      the screen? */
  function ReachedBottom(g: Game): (reached: bool)
    ensures reached <==> exists a :: a in g.aliens && a.y + g.layout.alienHeight >= g.layout.screenHeight
  {
    Any(g.aliens, (a: Alien) => a.y + g.layout.alienHeight >= g.layout.screenHeight)
  }

  /** `_check_aliens_bottom`: one ship hit when any alien is at the bottom, however many are. */
  function CheckAliensBottom(g: Game): (r: Game)
    ensures g.shipsLeft > 0 ==>
      r.shipsLeft == (if ReachedBottom(g) then g.shipsLeft - 1 else g.shipsLeft)
    ensures ReachedBottom(g) && g.shipsLeft > 0 ==>
      r.aliens == CreateFleet(g.layout) && r.bullets == []
    ensures ReachedBottom(g) && g.shipsLeft > 0 ==>
      r.(shipsLeft := g.shipsLeft, aliens := g.aliens, bullets := g.bullets) == g
    ensures ReachedBottom(g) && g.shipsLeft <= 0 ==> !r.active && r.(active := g.active) == g
    ensures !ReachedBottom(g) ==> r == g
  {
    if ReachedBottom(g) then ShipHit(g) else g
  }

  /** Every alien moved down by `drop`. */
  function Drop(aliens: seq<Alien>, drop: int): (r: seq<Alien>)
    ensures |r| == |aliens|
    ensures forall i :: 0 <= i < |aliens| ==> r[i] == Alien(aliens[i].x, aliens[i].y + drop)
  {
    seq(|aliens|, i requires 0 <= i < |aliens| => Alien(aliens[i].x, aliens[i].y + drop))
  }

  /** `_change_fleet_direction`: drop the fleet and reverse its direction. */
  function ChangeFleetDirection(g: Game): (r: Game)
    ensures r.settings.fleetDirection == -g.settings.fleetDirection
    ensures r.settings.(fleetDirection := g.settings.fleetDirection) == g.settings
    ensures |r.aliens| == |g.aliens|
    ensures forall i :: 0 <= i < |g.aliens| ==>
      r.aliens[i].x == g.aliens[i].x && r.aliens[i].y == g.aliens[i].y + g.settings.alienDropSpeed
    ensures r.(aliens := g.aliens, settings := g.settings) == g
  {
    g.(aliens := Drop(g.aliens, g.settings.alienDropSpeed),
       settings := g.settings.(fleetDirection := -g.settings.fleetDirection))
  }

  /** The scan of `_check_fleet_edges`: is some alien at an edge? */
  function AnyAtEdge(aliens: seq<Alien>, atEdge: Alien -> bool): (found: bool)
    ensures found <==> exists a :: a in aliens && atEdge(a)
  {
    Any(aliens, atEdge)
  }

  /** `_check_fleet_edges`: one drop-and-reverse when any alien is at an edge, otherwise
      nothing changes. */
  function CheckFleetEdges(g: Game, atEdge: Alien -> bool): (r: Game)
    ensures |r.aliens| == |g.aliens|
    ensures AnyAtEdge(g.aliens, atEdge) ==>
      && r.settings.fleetDirection == -g.settings.fleetDirection
      && (forall i :: 0 <= i < |g.aliens| ==>
            r.aliens[i].x == g.aliens[i].x
            && r.aliens[i].y == g.aliens[i].y + g.settings.alienDropSpeed)
    ensures !AnyAtEdge(g.aliens, atEdge) ==> r == g
    ensures r.(aliens := g.aliens, settings := g.settings) == g
    ensures r.settings.(fleetDirection := g.settings.fleetDirection) == g.settings
    ensures Direction(g.settings.fleetDirection) ==> Direction(r.settings.fleetDirection)
  {
    if AnyAtEdge(g.aliens, atEdge) then ChangeFleetDirection(g) else g
  }

  /** `_update_aliens`: edge check, move, ship collision, bottom check. */
  function UpdateAliens(g: Game, physics: Physics): (r: Game)
    ensures r.settings.(fleetDirection := g.settings.fleetDirection) == g.settings
    ensures Direction(g.settings.fleetDirection) ==> Direction(r.settings.fleetDirection)
    ensures r.score == g.score && r.highScore == g.highScore && r.level == g.level
    ensures r.layout == g.layout
    ensures |r.bullets| <= |g.bullets|
    ensures g.shipsLeft >= 0 ==> 0 <= r.shipsLeft <= g.shipsLeft
    ensures r.active ==> g.active
  {
    var edged := CheckFleetEdges(g, physics.atEdge);
    var moved := edged.(aliens := MoveFleet(edged.aliens, physics.moveAlien,
                                            edged.settings.fleetDirection));
    var collided := if physics.shipCollides(moved.aliens) then ShipHit(moved) else moved;
    CheckAliensBottom(collided)
  }

  /** `self.aliens.update()`: every alien takes one step in the fleet's direction. */
  function MoveFleet(aliens: seq<Alien>, moveAlien: (Alien, int) -> Alien, direction: int)
    : (r: seq<Alien>)
    ensures |r| == |aliens|
    ensures forall i :: 0 <= i < |aliens| ==> r[i] == moveAlien(aliens[i], direction)
  {
    seq(|aliens|, i requires 0 <= i < |aliens| => moveAlien(aliens[i], direction))
  }

  /** One pass of the main loop after the events: updates run only in an active game, and
      a frame can end a game but never start one. */
  function RunFrame(g: Game, physics: Physics): (r: Game)
    ensures !g.active ==> r == g
    ensures r.active ==> g.active
    ensures r.layout == g.layout
    ensures g.shipsLeft >= 0 ==> 0 <= r.shipsLeft <= g.shipsLeft
    ensures r.score >= g.score || g.settings.alienPoint < 0
    ensures r.highScore >= g.highScore
    ensures r.level == g.level || r.level == g.level + 1
  {
    if g.active then UpdateAliens(UpdateBullets(g, physics), physics) else g
  }

  /** `_start_game`: reset the dynamic settings and the stats, activate, and start on a
      fresh fleet with no bullets. The high score and the points per alien carry over. */
  function StartGame(g: Game): (r: Game)
    ensures r.active
    ensures r.settings.fleetDirection == 1 && r.settings.speedUps == 0
    ensures r.settings.alienPoint == g.settings.alienPoint
    ensures r.settings == InitializeDynamic(g.settings)
    ensures r.shipsLeft == g.settings.shipLimit && r.score == 0 && r.level == 1
    ensures r.aliens == CreateFleet(g.layout) && r.bullets == []
    ensures r.highScore == g.highScore && r.layout == g.layout
    ensures Valid(g.settings) ==> Invariant(r)
  {
    var s := InitializeDynamic(g.settings);
    ResetStats(g.(active := true, settings := s)).(aliens := CreateFleet(g.layout), bullets := [])
  }

  /** `_check_play_button`: a click on the button starts a game only when none is running. */
  function CheckPlayButton(g: Game, onButton: bool): (r: Game)
    ensures onButton ==> r.active
    ensures onButton && !g.active ==> r == StartGame(g)
    ensures g.active ==> r == g
    ensures !onButton ==> r == g
  {
    if onButton && !g.active then StartGame(g) else g
  }

  /** The keys the controller reacts to. `Space` carries the bullet the ship would spawn. */
  datatype Key = Right | Left | Quit | Space(spawned: Bullet) | Restart | OtherKey

  datatype Event = CloseWindow | MouseDown(onButton: bool) | KeyDown(key: Key) | KeyUp(key: Key)

  /** The game continues with a new state, or the program exits after the quit-time save. */
  datatype Step = Continue(game: Game) | Exit(saved: Result<HighScore.DataFile>)

  /** `_check_events` for one event. Ship movement flags are not modelled, so arrow keys
      leave the modelled state unchanged. */
  function HandleEvent(g: Game, e: Event, file: HighScore.DataFile): (r: Step)
    ensures (e.CloseWindow? || e == KeyDown(Quit)) <==> r.Exit?
    ensures r.Exit? ==> r.saved == HighScore.SaveHighScore(file, g.highScore)
    ensures e == KeyDown(Restart) ==> r == Continue(StartGame(g))
    ensures e.MouseDown? ==> r == Continue(CheckPlayButton(g, e.onButton))
    ensures e.KeyDown? && e.key.Space? ==> r == Continue(Fire(g, e.key.spawned))
    ensures e.KeyUp? || e == KeyDown(Right) || e == KeyDown(Left) || e == KeyDown(OtherKey) ==>
      r == Continue(g)
  {
    match e
    case CloseWindow => Exit(HighScore.SaveHighScore(file, g.highScore))
    case MouseDown(onButton) => Continue(CheckPlayButton(g, onButton))
    case KeyUp(_) => Continue(g)
    case KeyDown(key) =>
      match key
      case Quit => Exit(HighScore.SaveHighScore(file, g.highScore))
      case Space(spawned) => Continue(Fire(g, spawned))
      case Restart => Continue(StartGame(g))
      case _ => Continue(g)
  }
}

=== FILE: game_properties.dfy ===
/** Properties that relate several steps of the game-state machine. */
module GameProperties {
  import opened Fleet
  import opened Game
  import HighScore

  /** No bullet overlaps any alien. */
  predicate NoneHit(bullets: seq<Bullet>, aliens: seq<Alien>, hit: (Bullet, Alien) -> bool) {
    forall b, a :: b in bullets && a in aliens ==> !hit(b, a)
  }

  /** When no bullet overlaps any alien, `groupcollide` reports nothing and removes nothing. */
  lemma {:induction false} NoHitNoCollision(bullets: seq<Bullet>, aliens: seq<Alien>,
                                            hit: (Bullet, Alien) -> bool)
    requires NoneHit(bullets, aliens, hit)
    ensures GroupCollide(bullets, aliens, hit) == Collision(bullets, aliens, [])
    decreases |bullets|
  {
    if |bullets| > 0 {
      var b := bullets[0];
      var spared := Sequences.Filter(aliens, (a: Alien) => !hit(b, a));
      assert spared == aliens;
      assert forall x :: x in bullets[1..] ==> x in bullets;
      NoHitNoCollision(bullets[1..], aliens, hit);
      assert bullets == [b] + bullets[1..];
    }
  }

  /** Pruning twice is pruning once. */
  lemma PruneIdempotent(bullets: seq<Bullet>)
    ensures Prune(Prune(bullets)) == Prune(bullets)
  {
  }

  /** Pruning keeps the bullets in the order they were fired: pruning a concatenation
      prunes each part and concatenates the results. */
  lemma PruneKeepsOrder(s: seq<Bullet>, t: seq<Bullet>)
    ensures Prune(s + t) == Prune(s) + Prune(t)
  {
    Sequences.FilterConcat(s, t, OnScreen);
  }

  /** With no bullet overlapping any alien of a non-empty fleet, the collision step changes nothing. */
  lemma NoHitNoChange(g: Game, hit: (Bullet, Alien) -> bool)
    requires NoneHit(g.bullets, g.aliens, hit)
    requires |g.aliens| > 0
    ensures CheckAlienCollisions(g, hit) == g
  {
    NoHitNoCollision(g.bullets, g.aliens, hit);
  }

  /** The collision step keeps the invariant: fewer bullets, a score that only grows,
      and a speed-up that keeps the settings well formed. */
  lemma CollisionsKeepInvariant(g: Game, hit: (Bullet, Alien) -> bool)
    requires Invariant(g)
    ensures Invariant(CheckAlienCollisions(g, hit))
    ensures CheckAlienCollisions(g, hit).score >= g.score
  {
  }

  /** While some alien survives, the bullets left after the collision step are exactly those
      that overlap no alien still alive when they are tried, in their original order. */
  lemma CollisionsKeepUnspentBullets(g: Game, hit: (Bullet, Alien) -> bool)
    requires |Survivors(g, hit)| > 0
    ensures CheckAlienCollisions(g, hit).bullets == Unspent(g, hit)
  {
    assert |ScoreHits(g, hit).aliens| > 0;
  }

  /** A hit that takes the last life away keeps the game running on a fresh fleet; only a
      hit with no lives left ends it. */
  lemma LastLifeKeepsPlaying(g: Game)
    requires g.shipsLeft == 1
    ensures ShipHit(g).shipsLeft == 0 && ShipHit(g).active == g.active
    ensures ShipHit(g).aliens == CreateFleet(g.layout)
    ensures !ShipHit(ShipHit(g)).active
  {
  }

  /** A freshly laid out fleet is clear of the screen bottom. */
  lemma FreshFleetNotAtBottom(g: Game)
    requires g.aliens == CreateFleet(g.layout)
    ensures !ReachedBottom(g)
  {
    FleetBounds(g.layout);
  }

  /** Updating the aliens costs at most one ship, never takes the count below zero, and
      leaves it alone when no hit happened. */
  lemma UpdateAliensAtMostOneHit(g: Game, physics: Physics)
    requires g.shipsLeft >= 0
    ensures var r := UpdateAliens(g, physics);
      (r.shipsLeft == g.shipsLeft || r.shipsLeft == g.shipsLeft - 1) && r.shipsLeft >= 0
  {
    var edged := CheckFleetEdges(g, physics.atEdge);
    var moved := edged.(aliens := MoveFleet(edged.aliens, physics.moveAlien,
                                            edged.settings.fleetDirection));
    if physics.shipCollides(moved.aliens) && moved.shipsLeft > 0 {
      FreshFleetNotAtBottom(ShipHit(moved));
    }
  }

  /** A frame loses at most one ship: an ensuing bottom check cannot fire on the fleet
      that a ship hit has just laid out. */
  lemma FrameLosesAtMostOneShip(g: Game, physics: Physics)
    requires g.shipsLeft >= 0
    ensures var r := RunFrame(g, physics);
      (r.shipsLeft == g.shipsLeft || r.shipsLeft == g.shipsLeft - 1) && r.shipsLeft >= 0
  {
    if g.active {
      UpdateAliensAtMostOneHit(UpdateBullets(g, physics), physics);
    }
  }

  /** The bullet update keeps the invariant. */
  lemma UpdateBulletsKeepsInvariant(g: Game, physics: Physics)
    requires Invariant(g)
    ensures Invariant(UpdateBullets(g, physics))
  {
    var pruned := Prune(MoveBullets(g.bullets, physics.moveBullet));
    CollisionsKeepInvariant(g.(bullets := pruned), physics.bulletHits);
  }

  /** The alien update keeps the invariant. */
  lemma UpdateAliensKeepsInvariant(g: Game, physics: Physics)
    requires Invariant(g)
    ensures Invariant(UpdateAliens(g, physics))
  {
    UpdateAliensAtMostOneHit(g, physics);
  }

  /** Every frame keeps the invariant: lives never negative, direction +1 or -1, bullets
      within the allowance, score non-negative, level at least 1. */
  lemma FrameKeepsInvariant(g: Game, physics: Physics)
    requires Invariant(g)
    ensures Invariant(RunFrame(g, physics))
  {
    if g.active {
      UpdateBulletsKeepsInvariant(g, physics);
      UpdateAliensKeepsInvariant(UpdateBullets(g, physics), physics);
    }
  }

  /** Every event that does not exit keeps the invariant. */
  lemma EventKeepsInvariant(g: Game, e: Event, file: HighScore.DataFile)
    requires Invariant(g)
    requires HandleEvent(g, e, file).Continue?
    ensures Invariant(HandleEvent(g, e, file).game)
  {
  }

  /** Reversing twice restores the direction and the rest of the settings, and the fleet
      has dropped twice. */
  lemma FlipTwiceRestoresDirection(g: Game)
    ensures var r := ChangeFleetDirection(ChangeFleetDirection(g));
      && r.settings == g.settings
      && |r.aliens| == |g.aliens|
      && forall i :: 0 <= i < |g.aliens| ==>
           r.aliens[i].x == g.aliens[i].x
           && r.aliens[i].y == g.aliens[i].y + 2 * g.settings.alienDropSpeed
  {
  }

  /** The play button does nothing while a game runs; the restart key always starts one. */
  lemma PlayButtonOnlyWhenInactive(g: Game, file: HighScore.DataFile)
    ensures g.active ==> HandleEvent(g, MouseDown(true), file) == Continue(g)
    ensures !g.active ==> HandleEvent(g, MouseDown(true), file) == Continue(StartGame(g))
    ensures HandleEvent(g, KeyDown(Restart), file) == Continue(StartGame(g))
    ensures HandleEvent(g, KeyDown(Restart), file).game.active
  {
  }

  /** Within a running game nothing goes backwards: a frame never adds a life, never
      lowers the score, the high score, the level or the points per alien. */
  lemma FrameMonotone(g: Game, physics: Physics)
    requires Invariant(g)
    ensures var r := RunFrame(g, physics);
      && r.shipsLeft <= g.shipsLeft
      && r.score >= g.score
      && r.highScore >= g.highScore
      && g.level <= r.level <= g.level + 1
      && r.settings.alienPoint >= g.settings.alienPoint
  {
    if g.active {
      var u := UpdateBullets(g, physics);
      assert u.settings.alienPoint >= g.settings.alienPoint;
      assert u.shipsLeft >= 0;
    }
  }

  /** Events never touch the high score or the points per alien, and the only event that
      can raise the number of lives is a game start. */
  lemma EventEffects(g: Game, e: Event, file: HighScore.DataFile)
    requires HandleEvent(g, e, file).Continue?
    ensures HandleEvent(g, e, file).game.highScore == g.highScore
    ensures HandleEvent(g, e, file).game.settings.alienPoint == g.settings.alienPoint
    ensures HandleEvent(g, e, file).game.shipsLeft != g.shipsLeft ==>
      HandleEvent(g, e, file).game == StartGame(g)
  {
  }

  /** Starting a game on a layout with room for at least one row and column gives a non-empty
      fleet of exactly rows times columns aliens. */
  lemma StartGivesFullFleet(g: Game)
    requires Columns(g.layout) > 0 && Rows(g.layout) > 0
    ensures |StartGame(g).aliens| == Columns(g.layout) * Rows(g.layout) > 0
  {
    FleetSize(g.layout);
  }
}

=== FILE: highscore.dfy ===
/** When the high score is written to the data file, and what reading it back gives. */
module HighScore {
  import opened Results
  import Decimal

  /** The data file is modelled as the string `json.load` returns, or `None` when the
      file does not exist. */
  type DataFile = Option<string>

  /** The stored high score: none without a file; reading an unparsable string raises. */
  function Stored(file: DataFile): (r: Result<Option<int>>)
    ensures file.None? ==> r == Ok(None)
    ensures file.Some? ==> (r.Ok? <==> Decimal.Parse(file.value).Some?)
    ensures file.Some? && r.Ok? ==> r.value == Decimal.Parse(file.value)
  {
    match file
    case None => Ok(None)
    case Some(text) =>
      match Decimal.Parse(text)
      case None => Err("ValueError")
      case Some(v) => Ok(Some(v))
  }

  /** The file is rewritten when there is no stored value or it is below the current score. */
  predicate ShouldWrite(stored: Option<int>, current: int) {
    stored.None? || stored.value < current
  }

  /** The stored value after the quit-time decision: never lower than before, never
      lower than the current high score, and changed exactly when a write happens. */
  function Persist(stored: Option<int>, current: int): (r: Option<int>)
    ensures r.Some? && r.value >= current
    ensures stored.Some? ==> r.value >= stored.value
    ensures r == stored || r == Some(current)
    ensures ShouldWrite(stored, current) <==> r != stored
  {
    if ShouldWrite(stored, current) then Some(current) else stored
  }

  /** `_load_data`: a missing file keeps the in-memory value, otherwise the stored
      value replaces it; an unparsable file raises. */
  function LoadData(highScore: int, file: DataFile): (r: Result<int>)
    ensures Stored(file) == Ok(None) ==> r == Ok(highScore)
    ensures forall v :: Stored(file) == Ok(Some(v)) ==> r == Ok(v)
    ensures Stored(file).Err? <==> r.Err?
  {
    match Stored(file)
    case Err(e) => Err(e)
    case Ok(None) => Ok(highScore)
    case Ok(Some(v)) => Ok(v)
  }

  /** `_load_high_score`, run on quit: writes `str(highScore)` when there is no file or
      the stored value is smaller; otherwise the file is left as it is. */
  function SaveHighScore(file: DataFile, highScore: int): (r: Result<DataFile>)
    ensures r.Ok? <==> Stored(file).Ok?
    ensures r.Ok? ==> Stored(r.value) == Ok(Persist(Stored(file).value, highScore))
    ensures r.Ok? && !ShouldWrite(Stored(file).value, highScore) ==> r.value == file
  {
    match file
    case None =>
      Decimal.ParseShow(highScore);
      Ok(Some(Decimal.Show(highScore)))
    case Some(text) =>
      match Decimal.Parse(text)
      case None => Err("ValueError")
      case Some(stored) =>
        if stored < highScore then
          Decimal.ParseShow(highScore);
          Ok(Some(Decimal.Show(highScore)))
        else Ok(file)
  }

  /** Saving on quit and loading at the next start gives the larger of the stored and
      current high scores; with no earlier file it gives the current one. */
  lemma SaveThenLoad(file: DataFile, highScore: int, inMemory: int)
    requires Stored(file).Ok?
    ensures SaveHighScore(file, highScore).Ok?
    ensures Stored(file).value.None? ==>
      LoadData(inMemory, SaveHighScore(file, highScore).value) == Ok(highScore)
    ensures Stored(file).value.Some? ==>
      var before := Stored(file).value.value;
      LoadData(inMemory, SaveHighScore(file, highScore).value)
        == Ok(if before < highScore then highScore else before)
  {
  }
}

=== FILE: results.dfy ===
/** Optional values and results of operations that may raise. */
module Results {

  /** A value that may be absent (a missing file, an unparsable string). */
  datatype Option<T> = None | Some(value: T)

  /** The outcome of a step that can raise an exception the program does not catch. */
  datatype Result<T> = Ok(value: T) | Err(reason: string)
}

=== FILE: sequences.dfy ===
/** Order-keeping selection from a sequence, the model of removing sprites from a group. */
module Sequences {

  /** The elements of `s` that `keep` accepts, in their original order. */
  function Filter<T(==,!new)>(s: seq<T>, keep: T -> bool): (r: seq<T>)
    ensures forall x :: x in r <==> x in s && keep(x)
    ensures forall x :: multiset(r)[x] == if keep(x) then multiset(s)[x] else 0
    ensures |r| <= |s|
    ensures |r| == |s| <==> forall x :: x in s ==> keep(x)
    ensures (forall x :: x in s ==> keep(x)) ==> r == s
    decreases |s|
  {
    if |s| == 0 then []
    else
      var rest := Filter(s[1..], keep);
      assert s == [s[0]] + s[1..];
      assert multiset(s) == multiset([s[0]]) + multiset(s[1..]);
      if keep(s[0]) then [s[0]] + rest else rest
  }

  /** A left-to-right scan that stops at the first element `test` accepts. */
  function Any<T>(s: seq<T>, test: T -> bool): (found: bool)
    ensures found <==> exists x :: x in s && test(x)
    decreases |s|
  {
    if |s| == 0 then false
    else if test(s[0]) then true
    else
      assert forall x :: x in s ==> x == s[0] || x in s[1..];
      Any(s[1..], test)
  }

  /** Filtering keeps the original order: filtering a concatenation filters each part and
      concatenates the results, so an accepted element of `s` stays ahead of every accepted
      element of `t`. */
  lemma {:induction false} FilterConcat<T(!new)>(s: seq<T>, t: seq<T>, keep: T -> bool)
    ensures Filter(s + t, keep) == Filter(s, keep) + Filter(t, keep)
    decreases |s|
  {
    if |s| > 0 {
      assert (s + t)[1..] == s[1..] + t;
      FilterConcat(s[1..], t, keep);
    } else {
      assert s + t == t;
    }
  }

  /** Filtering twice keeps what both tests accept, in the original order. */
  lemma {:induction false} FilterTwice<T(!new)>(s: seq<T>, first: T -> bool, second: T -> bool,
                                                 both: T -> bool)
    requires forall x :: x in s ==> both(x) == (first(x) && second(x))
    ensures Filter(Filter(s, first), second) == Filter(s, both)
    decreases |s|
  {
    if |s| > 0 {
      var x, t := s[0], s[1..];
      assert forall y :: y in t ==> y in s;
      FilterTwice(t, first, second, both);
      var once := Filter(t, first);
      if first(x) {
        assert Filter(s, first) == [x] + once;
        assert ([x] + once)[1..] == once;
      } else {
        assert Filter(s, first) == once;
      }
    }
  }
}

=== FILE: settings.dfy ===
/** The integer part of the game's tuning values and their bookkeeping. */
module GameSettings {

  const ShipLimit: int := 3
  const BulletAllowed: int := 20
  const AlienDropSpeed: int := 10
  const InitialAlienPoint: int := 50

  /** The integer settings. The float speeds are not modelled; `speedUps` counts
      how many times they have been scaled since the last reset. */
  datatype Settings = Settings(
    shipLimit: int,
    bulletAllowed: int,
    alienDropSpeed: int,
    alienPoint: int,
    fleetDirection: int,
    speedUps: nat)

  /** Fleet direction is +1 (right) or -1 (left). */
  predicate Direction(d: int) {
    d == 1 || d == -1
  }

  /** What every reachable settings value satisfies. */
  predicate Valid(s: Settings) {
    && Direction(s.fleetDirection)
    && s.alienPoint >= 0
    && s.shipLimit >= 0
    && s.bulletAllowed >= 0
  }

  /** The settings built by the constructor: base values, then the dynamic reset. */
  function Initial(): (s: Settings)
    ensures Valid(s)
    ensures s.shipLimit == 3 && s.bulletAllowed == 20
    ensures s.alienDropSpeed == 10 && s.alienPoint == 50
    ensures s.fleetDirection == 1 && s.speedUps == 0
  {
    InitializeDynamic(Settings(ShipLimit, BulletAllowed, AlienDropSpeed, InitialAlienPoint, 0, 0))
  }

  /** Resets the dynamic values. The point value is deliberately left alone. */
  function InitializeDynamic(s: Settings): (r: Settings)
    ensures r.fleetDirection == 1 && r.speedUps == 0
    ensures r.alienPoint == s.alienPoint
    ensures r.shipLimit == s.shipLimit && r.bulletAllowed == s.bulletAllowed
    ensures r.alienDropSpeed == s.alienDropSpeed
    ensures s.alienPoint >= 0 && s.shipLimit >= 0 && s.bulletAllowed >= 0 ==> Valid(r)
  {
    s.(fleetDirection := 1, speedUps := 0)
  }

  /** Python's `int(p * 1.5)`: the exact product truncated toward zero. */
  function ScalePoint(p: int): (r: int)
    ensures p >= 0 ==> 2 * r <= 3 * p < 2 * r + 2
    ensures p < 0 ==> 2 * r - 2 < 3 * p <= 2 * r
  {
    if p >= 0 then (3 * p) / 2 else -((-3 * p) / 2)
  }

  /** Scales the speeds (counted only) and the points awarded per alien. */
  function IncreaseSpeed(s: Settings): (r: Settings)
    ensures r.alienPoint == ScalePoint(s.alienPoint)
    ensures r.speedUps == s.speedUps + 1
    ensures r.fleetDirection == s.fleetDirection
    ensures r.shipLimit == s.shipLimit && r.bulletAllowed == s.bulletAllowed
    ensures r.alienDropSpeed == s.alienDropSpeed
    ensures Valid(s) ==> Valid(r) && r.alienPoint >= s.alienPoint
  {
    s.(speedUps := s.speedUps + 1, alienPoint := ScalePoint(s.alienPoint))
  }

  /** Points strictly grow from 2 on; 0 and 1 are fixed points. */
  lemma ScalePointGrows(p: int)
    requires p >= 0
    ensures p >= 2 <==> ScalePoint(p) > p
    ensures p < 2 ==> ScalePoint(p) == p
  {
  }

  /** The points after `n` speed-ups, starting from `p`. */
  function ScaledTimes(p: int, n: nat): int
    decreases n
  {
    if n == 0 then p else ScaledTimes(ScalePoint(p), n - 1)
  }

  /** Repeated speed-ups from a value of at least 2 strictly increase the points. */
  lemma {:induction false} ScaledTimesGrows(p: int, n: nat)
    requires p >= 2
    ensures ScaledTimes(p, n) >= p + n
    decreases n
  {
    if n > 0 {
      ScalePointGrows(p);
      ScaledTimesGrows(ScalePoint(p), n - 1);
    }
  }

  /** From the initial 50 points, successive levels are worth 75, 112, 168 and 252. */
  lemma PointSequenceFromInitial()
    ensures ScaledTimes(Initial().alienPoint, 1) == 75
    ensures ScaledTimes(Initial().alienPoint, 2) == 112
    ensures ScaledTimes(Initial().alienPoint, 3) == 168
    ensures ScaledTimes(Initial().alienPoint, 4) == 252
  {
  }
}
